=== FILE: README.md ===
# Mystic Brawl: the frame simulation

Mystic Brawl is a two-player arena game. Player 1 moves with W/A/S/D and the
arrow keys and fires with Z (east) and X (west). Player 2 moves with I/J/K/L
and fires with P (west) and O (east). Three enemies wander the screen and
throw projectiles at player 1. A player projectile that touches an enemy
scores one point and respawns that enemy. An enemy touching player 1, or an
enemy projectile hitting player 1, asks the window to close. So does Escape.

The game's logic sits inline in `main()`'s render loop, mixed in with OpenGL
calls. This project lifts it into one pure function, `Game.Step`, which maps
a `GameState` and one frame's inputs (`Tick`) to the next `GameState`. The
sub-steps run in the order the loop runs them:

1. W/A/S/D movement.
2. Arrow-key movement.
3. Player 2 movement.
4. Player 2 fires and moves its shot.
5. Player 2 hits.
6. Enemy wandering.
7. The Escape check.
8. Player 1 fires and moves its shot.
9. Enemy shots.
10. The body collision check.
11. Player 1 hits.

`Game.Run` is the loop itself: frames run until the close flag is set.

Modules, leaves first:

- `Options`: an optional value, the result of a search loop.
- `Geometry`: points, the axis-aligned box test `Near`, and the `[-1, 1]` bounds.
- `Inputs`: the key snapshot, the clock readings, and the random choices of one frame.
- `State`: the game state, gathering the program's globals and the render loop's statics, plus `Init`.
- `Movement`: the unguarded W/A/S/D handler and the guarded handler. The guarded handler is shared by the arrow keys and I/J/K/L.
- `Projectile`: horizontal flight of a player shot, shared by all four player slots.
- `PlayerTwo` and `PlayerOne`: fire handlers, key latches and flight for each player.
- `Wandering`: enemy velocity re-rolls, movement and reversal.
- `EnemyFire`: the enemy shot timer, spawn, flight, bounds check and hit test on player 1, plus the shot loop.
- `Respawn`: the rejection loop that places a respawned enemy.
- `Combat`: the scoring checks of both players and the body collision check.
- `Game`: `Step`, `Run`, and the invariants they keep.
- `Scenarios`: concrete frames from the start of the game.

Inputs are values, not calls:

- The keyboard is a record of pressed/released flags.
- The clock is the readings one frame takes. The wander loop reads the clock once per enemy, and the shot loop reads it once.
- Each angle draw, together with its cosine and sine, is replaced by the velocity vector it produces (`Oracle.turn`, `Oracle.aim`).
- Respawn candidates are the raw random integers. The model turns them into coordinates the same way the program does: `((r % 200) - 100) / 100`.

The program's respawn loop draws until it finds an acceptable point and has
no bound. Here each hit check gets a finite list of draws, and `Step`
requires (`Game.Feasible`) that each list holds an acceptable candidate. This
requirement can be stated before the frame runs because players only move in
sub-steps 1-3. `Run` stops at a frame whose draws hold no acceptable
candidate.

Behaviour of the code that the model keeps as written:

- While the re-roll period is still 0, every enemy re-rolls its direction. The period becomes 2 only after the first wander pass.
- The X handler's debounce reads the Z latch. So the X latch is written but never read, and holding X at the left edge fires every frame.
- Pressing Z while the reverse shot flies does not latch Z.
- Player 2's "upward" flag is read but never set.
- A hit by an enemy shot leaves the shot loop. Enemies after that one get no timer check or shot movement that frame.
- A terminal collision does not stop the frame: player 1's hit check still runs and may score. Only Escape ends the frame early.
- Enemy shots and the body check test player 1 only.
- After a player-1 hit, the respawn avoids player 1 only, and only the forward flag turns off. The reverse shot keeps flying.
- An enemy shot spawns at the enemy and moves once in the same frame. Its hit test uses the moved position, even when the bounds check has just turned the slot off.
- An enemy that lands outside `[-1, 1]` is never pulled back. With a velocity too small to carry it back inside, it jumps between two positions outside until its next re-roll.
- The arrow keys and I/J/K/L guard on the current coordinate: up moves only if `y + 0.1 < 1.0`. A coordinate that starts strictly inside (-0.91, 0.91) therefore stays there (`Movement.Reach`). The statements run up, down, left, right, so each guard reads what the statement before it left. With both keys of an axis held, the result near an edge depends on that order (`Movement.OrderMatters`).

Where the program's own comments and its code disagree, the model follows the code:

- main.cpp:327-328 call a respawn coordinate a value "between -1.0 and 1.0". The code yields whole hundredths from -1.00 to 0.99, so 1.0 itself is never drawn (`Respawn.Coord`).
- main.cpp:354 says an enemy changes direction "every 2 seconds". The period is 0 on the first pass (main.cpp:213), so every enemy re-rolls in the first frame (`Wandering.FirstPassTurns`).
- main.cpp:449 says an enemy shoots "every 0.75 seconds". The timer resets every 0.75 whether or not the enemy's shot is still flying. A reset that finds the slot busy fires nothing (`EnemyFire.Rearm`).
- main.cpp:426 says the reverse shot moves "to the right". It moves left, by 0.05 per frame.
- main.cpp:332 deactivates an "upward projectile". Nothing ever activates it.

## Model

| member | source | states |
|---|---|---|
| Movement.FreeMove | main.cpp:85-94 | A pressed W/A/S/D key moves player 1 by exactly 0.01 on its axis, with no bound. Opposite keys held together cancel. An axis with neither key pressed stays put. |
| Movement.FreeMoveUndo | main.cpp:86-93 | An unguarded move is undone by pressing the opposite keys. |
| Movement.RiseThenFall | main.cpp:233-236 | The y axis follows its case table. One key moves 0.01 iff its guard holds (`y + 0.1 < 1.0` up, `y - 0.1 > -1.0` down). With both held, the coordinate falls when at or above 0.9, rises when at or below -0.91, and otherwise stays. The band (-0.91, 0.91) is kept. |
| Movement.FallThenRise | main.cpp:237-240 | The x axis follows its case table, with left handled before right. With both held, the coordinate rises when at or below -0.9, falls when at or above 0.91, and otherwise stays. The band is kept. |
| Movement.TablesDetermine | main.cpp:233-240 | Each case table fixes the result completely. |
| Movement.OrdersMirror | main.cpp:233-240 | Handling the falling key first is handling the rising key first on the negated coordinate. |
| Movement.OrderMatters | main.cpp:237-240 | With both keys held at x = -0.905, left-then-right gives -0.895 where up-then-down order would stay. At 0.905 it stays where the other order gives 0.895. |
| Movement.GuardedMove | main.cpp:233-240 | The guarded handler follows the left-first table on x and the up-first table on y. It keeps a player inside (-0.91, 0.91)² and moves at most 0.01 per axis. |
| Movement.MoveP1 | main.cpp:215-240 | Player 1 moves at most 0.02 per axis per frame. The arrow keys' guards read the position W/A/S/D left, with left before right and up before down. |
| Movement.MoveP2 | main.cpp:253-260 | Player 2 follows the same tables with J before L and I before K, and stays inside (-0.91, 0.91)². |
| Projectile.Advance | main.cpp:305-318 | An active shot's x changes by exactly ±0.05 and its y stays fixed. The slot stays active iff the new x has not passed its edge (x > 1 going east, x < -1 going west). An idle slot is untouched. |
| Projectile.FlightPath | main.cpp:410-423 | After n frames within its edge a shot is still active at x + n·(±0.05). The first frame past the edge turns it off. |
| Projectile.EastShotLifetime | main.cpp:410-423 | A shot fired east from x = 0.02 is active at x = 0.97 after 19 frames and gone after the 20th. Both positions are 0.02 or more from the edge, far beyond float rounding. |
| PlayerTwo.Fire | main.cpp:270-278 | A side fires iff its key is pressed, its latch is clear and both slots are idle. Firing copies player 2's position to the shot and sets the latch. A released key clears the latch, and only a release clears it. The other slot is untouched, and slot exclusion is kept. |
| PlayerTwo.Move | main.cpp:280-293 | An active slot's shot moves 0.05 toward its side, keeping y. The slot turns off iff the new x is past that side's edge. Latches and the other slot are unchanged. |
| PlayerTwo.Attack | main.cpp:270-318 | From idle, the left side fires first when it may and its shot stays on screen, leaving the right side idle. With P released, the right side fires when it may. A fired shot starts at player 2 and flies once that frame. With neither side able to fire, no slot is active and the shot is not moved. Exclusive slots stay exclusive, and player 2 and the upward flag are untouched. |
| PlayerTwo.AttackKeepsExclusive | main.cpp:270-318 | Player 2's attack handling never makes the left and right slots active together. It never moves player 2 and never sets the upward flag. |
| PlayerTwo.AttackLatches | main.cpp:270-303 | After a frame, each latch is set iff its key is held and the latch was already set or its side fired this frame. |
| PlayerTwo.HeldKeyFiresOnce | main.cpp:270-303 | A side that fired cannot fire again next frame while its key stays pressed. |
| PlayerOne.FireForward | main.cpp:387-397 | Z starts the forward shot at the player iff reverse and forward are idle, Z is pressed and the Z latch is clear. The Z latch ends set iff Z is held and it was set or reverse was idle. Exclusion is kept. |
| PlayerOne.FireReverse | main.cpp:398-408 | X starts the reverse shot iff forward and reverse are idle, X is pressed and the Z latch is clear. The Z latch is not changed. Exclusion is kept. |
| PlayerOne.Fly | main.cpp:410-438 | A lone forward shot moves +0.05 and stays up iff x ≤ 1. A lone reverse shot moves -0.05 and stays up iff x ≥ -1. y is kept, and flags only ever turn off. |
| PlayerOne.Attack | main.cpp:387-438 | From idle, Z fires east iff its latch is clear, and X fires west iff Z is released; the new shot starts at the player and flies once that frame, staying up iff inside its edge. With neither firing, only the latches change. The Z latch ends set iff Z is held and it was set or reverse was idle. Exclusive flags stay exclusive and the player does not move. |
| PlayerOne.AttackKeepsExclusive | main.cpp:387-438 | Player 1's attack handling never makes forward and reverse active together and never moves the player. |
| PlayerOne.XLatchIgnored | main.cpp:398-408 | The X latch has no effect: the attack handling gives the same result whatever it holds. |
| PlayerOne.HeldZFiresOnce | main.cpp:387-423 | Holding Z at the right edge fires once. The shot leaves that frame, and the set Z latch blocks the next frame. |
| PlayerOne.HeldXRefires | main.cpp:398-438 | Holding X at the left edge fires again every frame, because nothing latches X. |
| Wandering.Wander | main.cpp:351-373 | An enemy re-rolls iff `now - lastTurn >= period`, recording `now`. It always moves by the velocity in force and is never clamped. A velocity component is negated exactly when the moved coordinate is outside [-1, 1], keeping its magnitude. |
| Wandering.WanderAll | main.cpp:347-374 | Every enemy takes its own wander step, with its own clock reading and candidate velocity. |
| Wandering.FirstPassTurns | main.cpp:355-360 | While the period is 0, an enemy re-rolls and moves by the fresh velocity at any clock reading not before its last re-roll. |
| Wandering.ReversalUndoesStep | main.cpp:362-372 | Between re-rolls, an enemy that steps outside [-1, 1] on an axis is back on its original coordinate of that axis one frame later. |
| Wandering.TurnIsKept | main.cpp:354-360 | After a re-roll, no new re-roll happens until 2 time units have passed. |
| EnemyFire.Rearm | main.cpp:450-460 | The timer resets to `now` iff 0.75 has elapsed, even while a shot flies. A new shot at the enemy with the fresh aim appears only in an idle slot. Otherwise position and aim are kept. |
| EnemyFire.Shoot | main.cpp:450-485 | An active shot moves by its velocity and stays active iff both coordinates are in [-1, 1]. It hits iff it was active and its moved position is within 0.03 of player 1 on both axes. An idle slot never hits. |
| EnemyFire.TimerCadence | main.cpp:450-451 | Consecutive timer resets are at least 0.75 apart. A due reset of an active slot keeps its velocity. |
| EnemyFire.DueIdleSlotSpawns | main.cpp:452-466 | An idle, due slot spawns at the enemy and moves once that frame. It stays active iff enemy position plus aim is on screen. |
| EnemyFire.Shots | main.cpp:447-486 | The shot loop updates each enemy's shot in order until the first hit on player 1. Enemies after the hit keep their shots untouched. Enemy positions and velocities are never changed. |
| EnemyFire.ShotsHitIff | main.cpp:479-484 | The shot loop reports a hit iff some enemy's shot update hits player 1. |
| Respawn.Coord | main.cpp:327-328 | A random integer becomes a whole number of hundredths in [-1.00, 0.99]. |
| Respawn.Place | main.cpp:326-330 | The respawn point is the first draw outside the 0.2 box of every avoided player. It lies on the hundredths grid in [-1.00, 0.99]. |
| Respawn.PlaceWithin | main.cpp:501-504 | Draws after the first acceptable one never matter. |
| Respawn.CornersClear | main.cpp:326-330 | For any two points to avoid, one of the four grid corners is clear of both. So the respawn loop can always end. |
| Combat.FindHit | main.cpp:488-494 | The index-order search loop with its `break` returns the first enemy within 0.1 of the point on both axes, or none when no enemy is. |
| Combat.Hit | main.cpp:497-509 | A shot scores iff it is within 0.1 of some enemy on both axes. Only the first such enemy is respawned, clear of every avoided player. No other enemy changes, and only the respawned enemy's position changes. |
| Combat.Player2Hits | main.cpp:321-338 | Player 2 scores exactly one iff a flag is up and its shot touches an enemy. The first touched enemy respawns clear of both players, and all of player 2's flags turn off. Without a hit nothing changes. |
| Combat.Player1Hits | main.cpp:496-510 | Player 1 scores exactly one iff forward or reverse is up and its shot touches an enemy. The first touched enemy respawns clear of player 1. Only the forward flag turns off. Without a hit nothing changes. |
| Combat.BodyCheck | main.cpp:488-494 | The close flag ends set iff it was set or player 1 is within 0.1 of some enemy on both axes. Player 2 is never checked, and nothing else changes. |
| State.Init | main.cpp:17-444 | The start of the game: player 1 at (0, 0), player 2 at (0.5, 0.5), enemies at (0.3, 0.3), (-0.5, -0.2) and (0.7, -0.5) with zero velocity and idle shots. Every flag and latch is off, the score is 0, and the re-roll period is 0. |
| Game.AlwaysFeasible | main.cpp:326-330 | Any state has draws, the four grid corners, that make any frame feasible. `Run` stopping early therefore reflects the draws, never the state. |
| Game.BeforeEscape | main.cpp:214-374 | Before the Escape check: both players have moved, at most one point is scored, enemy shots are untouched and the re-roll period is 2. |
| Game.AfterEscape | main.cpp:387-510 | After the Escape check, player 2 and player 1's position are untouched, and at most one point is scored. The close flag ends set iff it was set, or some enemy's shot update lands within 0.03 of player 1, or player 1 is within 0.1 of an enemy. Player 1 scores iff, after its attack handling, a flag is up and its shot is within 0.1 of an enemy, whatever the collision checks found. |
| Game.Step | main.cpp:214-513 | A frame adds 0, 1 or 2 points and keeps the enemy count, leaving the period at 2. The close flag is never cleared and is set by Escape. Without Escape, it ends set iff it was set, or an enemy shot lands on player 1, or player 1 touches an enemy (positions after movement and wandering). Player 1 scores in the same frame iff its armed shot touches an enemy, even after a terminal collision. |
| Game.InitInvariant | main.cpp:243-250 | The start state satisfies the frame invariant. |
| Game.BeforeEscapeInvariant | main.cpp:253-338 | Movement, player 2's attacks and player 2's hits keep the frame invariant. |
| Game.AfterEscapeInvariant | main.cpp:387-510 | Player 1's attacks, enemy shots and both collision checks keep the frame invariant. |
| Game.StepInvariant | main.cpp:233-510 | A frame keeps each player's two projectile flags exclusive, keeps player 2's upward flag off, and keeps player 2 inside (-0.91, 0.91)². |
| Game.Run | main.cpp:214-513 | The loop keeps the enemy count and never lowers the score. Once the close flag is set it changes nothing, and after any frame has run the re-roll period is 2. |
| Game.RunInvariant | main.cpp:214-513 | Every state the loop reaches from an invariant state satisfies the invariant. |
| Game.ExclusiveFromInit | main.cpp:244-250 | From the start of the game, no reachable state has both of a player's projectile flags up. |
| Game.RunScore | main.cpp:321-510 | Over n frames the score never decreases and grows by at most 2n. |
| Game.ClosedIsFinal | main.cpp:214 | Once the close flag is set, the loop changes nothing more. |
| Game.EscapeSkipsRest | main.cpp:382-386 | Escape sets the close flag and ends the frame before player 1's attack handling. Player 1's flags, shot and latches, and the enemy shots, stay as they were, and at most one point is scored. |
| Scenarios.DriftEast | main.cpp:351-374 | In the first frame, with every re-roll drawing angle 0, each of the three enemies moves 0.005 east and keeps that velocity. The period becomes 2, and nothing else changes before the Escape check. |
| Scenarios.BodyCollisionEndsGame | main.cpp:488-494 | Player 1 at (0, 0) with enemy 0 at (0.05, 0.05): the frame closes the game and scores nothing. |
| Scenarios.ShotScores | main.cpp:496-510 | A forward shot reaching enemy 0, which has drifted from (0.3, 0.3) to (0.305, 0.3), scores 1 and is spent. The enemy respawns outside player 1's box. |
| Scenarios.FirstEnemyScores | main.cpp:496-510 | A forward shot touching enemy 0 scores one, turns the forward flag off, leaves the close flag alone, and respawns enemy 0 outside player 1's 0.2 box. |
| Scenarios.CollisionFrameStillScores | main.cpp:487-510 | A frame whose body check closes the game still runs player 1's hit check, and scores. |

## Left out

- Window, context and GLAD setup, shader compilation, vertex buffers and texture loading (main.cpp:60-83, 99-212): graphics set-up with no game logic.
- All draw calls, and the per-entity draw requests a frame emits: rendering output only.
- Console output of the score, and `glfwSwapBuffers`/`glfwPollEvents`: I/O.
- Closing the window from outside the game (the window manager's close button) also ends the loop. It is not an input of the model.
- Raw key polling is a `Keys` record of pressed/released flags. `glfwGetKey` never reports a repeat state for a key, so "not pressed" and "released" coincide.
- The clock readings are parameters. Their conversion from double to float is not modelled.
- `rand()`, `cos` and `sin`: the angle draws become oracle-supplied velocity vectors. Trigonometry is out of reach of the model's real arithmetic.
- Floating-point rounding: coordinates are mathematical reals. `abs` is taken as the absolute value of a float.
- Score overflow: the score is an unbounded natural number, not a 32-bit `int`.
- Player 1's projectile position starts at the origin. In the program, it is initialised from player 1's position the first time that code runs. The value is only read while a flag is up, and every flag raise overwrites it.
- The unbounded respawn loop: each hit check gets a finite list of draws, with the requirement described above.
- Wandering.Wander: does not state that a fresh velocity has magnitude 0.005, because that comes from cosine and sine of the drawn angle.
- Projectile.FlightPath: holds in real arithmetic. In single precision, a shot whose path lands exactly on its edge is off one frame earlier. From x = 0, twenty steps of 0.05 sum to 1.0000001 > 1.0. The model keeps such a shot for the twentieth frame.
- EnemyFire.Shoot: does not state that a fresh shot velocity has magnitude 0.02, for the same reason.
- Game.Run: stops at a frame whose respawn draws hold no acceptable candidate, where the program would keep drawing.

=== FILE: combat.dfy ===
/** Collisions between players, player projectiles and enemies: the scoring
    hits of each player's projectile, with the respawn they trigger, and the
    body collision that ends the game. */
module Combat {
  import opened Geometry
  import opened Options
  import opened Inputs
  import opened State
  import opened Respawn

  /** Half-width of the box for a player projectile hitting an enemy and for
      player 1's body touching an enemy. */
  const HitBox := 0.1

  /** Enemy i is the first one, in index order, within HitBox of p. */
  predicate FirstHit(es: seq<Enemy>, p: Vec, i: int)
  {
    0 <= i < |es| && Near(p, es[i].pos, HitBox) &&
    forall j :: 0 <= j < i ==> !Near(p, es[j].pos, HitBox)
  }

  /** es' is es with only enemy i's position changed, to a respawn point clear
      of every point in `avoid` on the grid of hundredths. */
  predicate RespawnedAt(es: seq<Enemy>, es': seq<Enemy>, i: int, avoid: seq<Vec>)
  {
    && 0 <= i < |es| == |es'|
    && es' == es[i := es[i].(pos := es'[i].pos)]
    && Clear(es'[i].pos, avoid)
    && OnGrid(es'[i].pos.x) && OnGrid(es'[i].pos.y)
  }

  predicate AnyHit(es: seq<Enemy>, p: Vec)
  {
    exists i :: 0 <= i < |es| && Near(p, es[i].pos, HitBox)
  }

  /** The collision loop from index `from` on, stopping at the first enemy
      within HitBox of p. */
  function FindHit(es: seq<Enemy>, p: Vec, from: nat): (r: Option<nat>)
    requires from <= |es|
    ensures r.Some? ==>
      && from <= r.value < |es| && Near(p, es[r.value].pos, HitBox)
      && (forall j :: from <= j < r.value ==> !Near(p, es[j].pos, HitBox))
    ensures r.None? ==> forall j :: from <= j < |es| ==> !Near(p, es[j].pos, HitBox)
    decreases |es| - from
  {
    if from == |es| then None
    else if Near(p, es[from].pos, HitBox) then Some(from)
    else FindHit(es, p, from + 1)
  }

  datatype Strike = Strike(enemies: seq<Enemy>, scored: bool)

  /** A projectile at `shot` against all enemies: the first enemy it touches is
      respawned at the first draw clear of every point in `avoid`, and the
      loop stops there. */
  function Hit(es: seq<Enemy>, shot: Vec, ds: seq<Draw>, avoid: seq<Vec>): (r: Strike)
    requires HasClear(ds, avoid)
    ensures |r.enemies| == |es|
    ensures forall j :: 0 <= j < |es| ==> r.enemies[j] == es[j].(pos := r.enemies[j].pos)
    ensures r.scored <==> AnyHit(es, shot)
    ensures !r.scored ==> r.enemies == es
    ensures r.scored ==> exists i :: FirstHit(es, shot, i) && RespawnedAt(es, r.enemies, i, avoid)
  {
    match FindHit(es, shot, 0)
    case None => Strike(es, false)
    case Some(i) =>
      var es' := es[i := es[i].(pos := Place(ds, avoid))];
      assert FirstHit(es, shot, i) && RespawnedAt(es, es', i, avoid);
      Strike(es', true)
  }

  /** Player 2's projectile is armed when any of its three flags is set. */
  predicate Armed2(p2: Player2)
  {
    p2.upward || p2.left.active || p2.right.active
  }

  /** Player 2's scoring check. A hit scores one, respawns the enemy clear of
      both players and turns all three player-2 flags off. */
  function Player2Hits(s: GameState, ds: seq<Draw>): (r: GameState)
    requires HasClear(ds, [s.p1.pos, s.p2.pos])
    ensures r.p1 == s.p1 && r.period == s.period && r.closeRequested == s.closeRequested
    ensures r.p2.pos == s.p2.pos && r.p2.shot == s.p2.shot
    ensures r.p2.left.latch == s.p2.left.latch && r.p2.right.latch == s.p2.right.latch
    ensures |r.enemies| == |s.enemies|
    ensures forall j :: 0 <= j < |s.enemies| ==> r.enemies[j] == s.enemies[j].(pos := r.enemies[j].pos)
    ensures r.score == s.score + 1 <==> Armed2(s.p2) && AnyHit(s.enemies, s.p2.shot)
    ensures r.score != s.score + 1 ==> r == s
    ensures r.score == s.score + 1 ==>
      && !Armed2(r.p2)
      && exists i :: FirstHit(s.enemies, s.p2.shot, i) && RespawnedAt(s.enemies, r.enemies, i, [s.p1.pos, s.p2.pos])
  {
    if Armed2(s.p2) then
      var h := Hit(s.enemies, s.p2.shot, ds, [s.p1.pos, s.p2.pos]);
      if h.scored then
        s.(enemies := h.enemies, score := s.score + 1,
           p2 := s.p2.(upward := false, left := s.p2.left.(active := false), right := s.p2.right.(active := false)))
      else s
    else s
  }

  /** Player 1's scoring check. A hit scores one, respawns the enemy clear of
      player 1 only and turns only the forward flag off. */
  function Player1Hits(s: GameState, ds: seq<Draw>): (r: GameState)
    requires HasClear(ds, [s.p1.pos])
    ensures r.p2 == s.p2 && r.period == s.period && r.closeRequested == s.closeRequested
    ensures r.p1 == s.p1.(forward := r.p1.forward)
    ensures |r.enemies| == |s.enemies|
    ensures forall j :: 0 <= j < |s.enemies| ==> r.enemies[j] == s.enemies[j].(pos := r.enemies[j].pos)
    ensures r.score == s.score + 1 <==> (s.p1.forward || s.p1.reverse) && AnyHit(s.enemies, s.p1.shot)
    ensures r.score != s.score + 1 ==> r == s
    ensures r.score == s.score + 1 ==>
      && !r.p1.forward
      && exists i :: FirstHit(s.enemies, s.p1.shot, i) && RespawnedAt(s.enemies, r.enemies, i, [s.p1.pos])
  {
    if s.p1.forward || s.p1.reverse then
      var h := Hit(s.enemies, s.p1.shot, ds, [s.p1.pos]);
      if h.scored then
        s.(enemies := h.enemies, score := s.score + 1, p1 := s.p1.(forward := false))
      else s
    else s
  }

  /** The body collision check: the game is asked to close when player 1 is
      within HitBox of any enemy; player 2 is never checked. */
  function BodyCheck(s: GameState): (r: GameState)
    ensures r == s.(closeRequested := r.closeRequested)
    ensures r.closeRequested <==> s.closeRequested || AnyHit(s.enemies, s.p1.pos)
  {
    match FindHit(s.enemies, s.p1.pos, 0)
    case Some(_) => s.(closeRequested := true)
    case None => s
  }
}

=== FILE: enemy_fire.dfy ===
/** Enemy projectiles: every enemy's shot timer resets each time ShotInterval
    has elapsed, spawning a shot at the enemy when its slot is idle; an active
    shot moves by its velocity, turns off once either coordinate leaves
    [-1, 1], and ends the game when it lands in player 1's small box. */
module EnemyFire {
  import opened Geometry
  import opened Options
  import opened State

  const ShotInterval := 0.75
  /** Half-width of the box an enemy shot must reach to hit player 1. */
  const AxeBox := 0.03

  predicate Due(s: EnemyShot, now: real)
  {
    now - s.lastFired >= ShotInterval
  }

  /** The slot after the timer check, before the shot moves. */
  function Rearm(e: Enemy, now: real, aim: Vec): (s: EnemyShot)
    ensures s.lastFired == (if Due(e.shot, now) then now else e.shot.lastFired)
    ensures s.active <==> e.shot.active || Due(e.shot, now)
    ensures !e.shot.active && Due(e.shot, now) ==> s.pos == e.pos && s.dir == aim
    ensures e.shot.active || !Due(e.shot, now) ==> s.pos == e.shot.pos && s.dir == e.shot.dir
  {
    var sh := e.shot;
    if Due(sh, now) then
      if !sh.active then EnemyShot(e.pos, aim, true, now) else sh.(lastFired := now)
    else sh
  }

  datatype Outcome = Outcome(shot: EnemyShot, hit: bool)

  /** One enemy's turn in the shot loop: timer check, then, for an active
      slot, the move, the bounds check and the hit test on player 1, which
      uses the moved position whether or not the bounds check turned the slot off. */
  function Shoot(e: Enemy, now: real, aim: Vec, target: Vec): (r: Outcome)
    ensures var s := Rearm(e, now, aim);
      && r.shot.lastFired == s.lastFired && r.shot.dir == s.dir
      && (s.active ==> r.shot.pos == s.pos.Plus(s.dir) && (r.shot.active <==> OnScreen(r.shot.pos)))
      && (!s.active ==> r.shot == s && !r.hit)
      && (r.hit <==> s.active && Near(r.shot.pos, target, AxeBox))
  {
    var s := Rearm(e, now, aim);
    if s.active then
      var pos := s.pos.Plus(s.dir);
      Outcome(s.(pos := pos, active := OnScreen(pos)), Near(pos, target, AxeBox))
    else Outcome(s, false)
  }

  /** The timer resets every time ShotInterval has elapsed, even while the
      previous shot is still flying; two resets are ShotInterval apart. */
  lemma TimerCadence(e: Enemy, now: real, aim: Vec, target: Vec)
    ensures var r := Shoot(e, now, aim, target);
      && (r.shot.lastFired != e.shot.lastFired ==> r.shot.lastFired - e.shot.lastFired >= ShotInterval)
      && (e.shot.active && Due(e.shot, now) ==> r.shot.lastFired == now && r.shot.dir == e.shot.dir)
  {
  }

  /** An idle slot whose timer is due spawns a shot at the enemy and moves it
      once: it is active afterwards exactly when enemy position plus aim is on screen. */
  lemma DueIdleSlotSpawns(e: Enemy, now: real, aim: Vec, target: Vec)
    requires !e.shot.active && Due(e.shot, now)
    ensures var r := Shoot(e, now, aim, target);
      && r.shot.pos == e.pos.Plus(aim) && r.shot.dir == aim && r.shot.lastFired == now
      && (r.shot.active <==> OnScreen(e.pos.Plus(aim)))
  {
  }

  datatype Volley = Volley(enemies: seq<Enemy>, hitBy: Option<nat>)

  /** The shot loop from enemy `from` on. A hit on player 1 leaves the loop at
      once, so the enemies after the one that hit are untouched this frame. */
  function Shots(es: seq<Enemy>, from: nat, now: real, aim: nat -> Vec, target: Vec): (r: Volley)
    requires from <= |es|
    ensures |r.enemies| == |es|
    ensures forall j :: 0 <= j < |es| ==> r.enemies[j].pos == es[j].pos && r.enemies[j].dir == es[j].dir && r.enemies[j].lastTurn == es[j].lastTurn
    ensures forall j :: 0 <= j < from ==> r.enemies[j] == es[j]
    ensures r.hitBy.None? ==>
      forall j :: from <= j < |es| ==>
        r.enemies[j].shot == Shoot(es[j], now, aim(j), target).shot && !Shoot(es[j], now, aim(j), target).hit
    ensures r.hitBy.Some? ==>
      var k := r.hitBy.value;
      && from <= k < |es|
      && Shoot(es[k], now, aim(k), target).hit
      && (forall j :: from <= j <= k ==> r.enemies[j].shot == Shoot(es[j], now, aim(j), target).shot)
      && (forall j :: from <= j < k ==> !Shoot(es[j], now, aim(j), target).hit)
      && (forall j :: k < j < |es| ==> r.enemies[j] == es[j])
    decreases |es| - from
  {
    if from == |es| then Volley(es, None)
    else
      var o := Shoot(es[from], now, aim(from), target);
      var es' := es[from := es[from].(shot := o.shot)];
      if o.hit then Volley(es', Some(from)) else Shots(es', from + 1, now, aim, target)
  }

  /** Some enemy's shot update, taken on its own, lands on the target. */
  predicate AnyShotHits(es: seq<Enemy>, now: real, aim: nat -> Vec, target: Vec)
  {
    exists k :: 0 <= k < |es| && Shoot(es[k], now, aim(k), target).hit
  }

  /** The whole shot loop: it reports a hit exactly when some enemy's shot,
      taken in order, lands on player 1 before any earlier one does. */
  lemma ShotsHitIff(es: seq<Enemy>, now: real, aim: nat -> Vec, target: Vec)
    ensures Shots(es, 0, now, aim, target).hitBy.Some? <==> AnyShotHits(es, now, aim, target)
  {
    var r := Shots(es, 0, now, aim, target);
    if r.hitBy.None? {
      assert forall k :: 0 <= k < |es| ==> !Shoot(es[k], now, aim(k), target).hit;
    }
  }
}

=== FILE: game.dfy ===
/** One frame of the game as a pure function of the state and the frame's
    inputs, in the order the render loop runs its handlers:
      1-3. movement of both players,
      4.   player 2's attacks,
      5.   player 2's hits,
      6.   enemy wandering (after which the re-roll period is 2),
      7.   the escape key, which ends the frame and the loop,
      8.   player 1's attacks,
      9.   enemy shots,
      10.  the body collision check,
      11.  player 1's hits.
    A frame that ends the game by collision still runs to its end; the loop
    then stops because the close flag is set. */
module Game {
  import opened Geometry
  import opened Inputs
  import opened State
  import opened Movement
  import opened Respawn
  import opened Combat
  import PlayerOne
  import PlayerTwo
  import Wandering
  import EnemyFire

  /** The players only move in steps 1-3, so the positions both respawn loops
      must avoid are known before the frame starts. A frame is feasible when
      each list of respawn draws holds a candidate its loop accepts. */
  predicate Feasible(s: GameState, t: Tick)
  {
    var p1 := MoveP1(s.p1.pos, t.keys);
    var p2 := MoveP2(s.p2.pos, t.keys);
    HasClear(t.oracle.p2Draws, [p1, p2]) && HasClear(t.oracle.p1Draws, [p1])
  }

  /** Every state has draws that make any frame feasible: the four corners of
      the grid, whatever the keys, clock and other random choices. So `Run`
      stopping at an infeasible frame reflects the draws, never the state. */
  lemma AlwaysFeasible(s: GameState, keys: Keys, clock: Clock, turn: nat -> Vec, aim: nat -> Vec)
    ensures Feasible(s, Tick(keys, clock, Oracle(turn, aim, Corners, Corners)))
  {
    CornersClear(MoveP1(s.p1.pos, keys), MoveP2(s.p2.pos, keys));
  }

  /** Steps 1-6: everything the frame does before the escape check. */
  function BeforeEscape(s: GameState, t: Tick): (r: GameState)
    requires Feasible(s, t)
    ensures r.p1 == s.p1.(pos := MoveP1(s.p1.pos, t.keys))
    ensures r.p2.pos == MoveP2(s.p2.pos, t.keys)
    ensures |r.enemies| == |s.enemies| && r.period == Wandering.TurnPeriod
    ensures r.closeRequested == s.closeRequested
    ensures r.score == s.score || r.score == s.score + 1
    ensures forall i :: 0 <= i < |s.enemies| ==> r.enemies[i].shot == s.enemies[i].shot
  {
    var keys := t.keys;
    var moved := s.(p1 := s.p1.(pos := MoveP1(s.p1.pos, keys)), p2 := s.p2.(pos := MoveP2(s.p2.pos, keys)));
    var attacked := moved.(p2 := PlayerTwo.Attack(moved.p2, keys.p, keys.o));
    var hit := Player2Hits(attacked, t.oracle.p2Draws);
    hit.(enemies := Wandering.WanderAll(hit.enemies, t.clock.wanderRead, hit.period, t.oracle.turn),
         period := Wandering.TurnPeriod)
  }

  /** Steps 8-11, run only when escape is not pressed. */
  function AfterEscape(s: GameState, t: Tick): (r: GameState)
    requires HasClear(t.oracle.p1Draws, [s.p1.pos])
    ensures r.p2 == s.p2 && r.period == s.period && r.p1.pos == s.p1.pos
    ensures |r.enemies| == |s.enemies|
    ensures r.closeRequested <==>
      || s.closeRequested
      || EnemyFire.AnyShotHits(s.enemies, t.clock.shotRead, t.oracle.aim, s.p1.pos)
      || AnyHit(s.enemies, s.p1.pos)
    ensures r.score == s.score || r.score == s.score + 1
    ensures var a := PlayerOne.Attack(s.p1, t.keys.z, t.keys.x);
      r.score == s.score + 1 <==> (a.forward || a.reverse) && AnyHit(s.enemies, a.shot)
  {
    var keys := t.keys;
    var armed := s.(p1 := PlayerOne.Attack(s.p1, keys.z, keys.x));
    var v := EnemyFire.Shots(armed.enemies, 0, t.clock.shotRead, t.oracle.aim, armed.p1.pos);
    EnemyFire.ShotsHitIff(armed.enemies, t.clock.shotRead, t.oracle.aim, armed.p1.pos);
    assert AnyHit(v.enemies, s.p1.pos) <==> AnyHit(s.enemies, s.p1.pos) by {
      assert forall j :: 0 <= j < |s.enemies| ==> v.enemies[j].pos == s.enemies[j].pos;
    }
    assert AnyHit(v.enemies, armed.p1.shot) <==> AnyHit(s.enemies, armed.p1.shot) by {
      assert forall j :: 0 <= j < |s.enemies| ==> v.enemies[j].pos == s.enemies[j].pos;
    }
    var shot := armed.(enemies := v.enemies, closeRequested := armed.closeRequested || v.hitBy.Some?);
    Player1Hits(BodyCheck(shot), t.oracle.p1Draws)
  }

  /** One frame. The score grows by at most one per hit check, and the
      re-roll period is 2 from the first frame on. The close flag is never
      cleared; it is set by Escape, or, once the enemies have wandered, by an
      enemy shot landing on player 1 or by player 1 touching an enemy. Without
      Escape, player 1's hit check runs whatever the collision checks found. */
  function Step(s: GameState, t: Tick): (r: GameState)
    requires Feasible(s, t)
    ensures s.score <= r.score <= s.score + 2
    ensures s.closeRequested ==> r.closeRequested
    ensures t.keys.escape ==> r.closeRequested
    ensures !t.keys.escape ==>
      var b := BeforeEscape(s, t);
      (r.closeRequested <==>
        || s.closeRequested
        || EnemyFire.AnyShotHits(b.enemies, t.clock.shotRead, t.oracle.aim, b.p1.pos)
        || AnyHit(b.enemies, b.p1.pos))
    ensures !t.keys.escape ==>
      var b := BeforeEscape(s, t);
      var a := PlayerOne.Attack(b.p1, t.keys.z, t.keys.x);
      (r.score == b.score + 1 <==> (a.forward || a.reverse) && AnyHit(b.enemies, a.shot))
    ensures |r.enemies| == |s.enemies| && r.period == Wandering.TurnPeriod
  {
    var b := BeforeEscape(s, t);
    if t.keys.escape then b.(closeRequested := true) else AfterEscape(b, t)
  }

  /** The render loop: frames run while the close flag is clear. The model
      also stops at a frame whose respawn draws hold no acceptable candidate,
      where the program's respawn loop would keep drawing. The loop keeps the
      enemy count, never lowers the score, leaves the period at 2 once a frame
      has run, and changes nothing once the close flag is set. */
  function Run(s: GameState, ticks: seq<Tick>): (r: GameState)
    ensures |r.enemies| == |s.enemies| && s.score <= r.score
    ensures s.closeRequested ==> r == s
    ensures r != s ==> r.period == Wandering.TurnPeriod
    decreases |ticks|
  {
    if |ticks| == 0 || s.closeRequested || !Feasible(s, ticks[0]) then s
    else Run(Step(s, ticks[0]), ticks[1..])
  }

  /** What every reachable state satisfies: neither player has two projectile
      flags up at once, player 2's upward flag stays off, and player 2 stays in
      the band its guarded keys allow. */
  predicate Invariant(s: GameState)
  {
    && PlayerOne.Exclusive(s.p1)
    && PlayerTwo.Exclusive(s.p2)
    && !s.p2.upward
    && InReach(s.p2.pos.x) && InReach(s.p2.pos.y)
  }

  lemma InitInvariant()
    ensures Invariant(Init())
  {
  }

  /** Steps 1-6 keep the invariant: player 2's guarded keys keep it in the
      band and its attack handling keeps its slots exclusive. */
  lemma BeforeEscapeInvariant(s: GameState, t: Tick)
    requires Feasible(s, t) && Invariant(s)
    ensures Invariant(BeforeEscape(s, t))
  {
    var keys := t.keys;
    var moved := s.(p1 := s.p1.(pos := MoveP1(s.p1.pos, keys)), p2 := s.p2.(pos := MoveP2(s.p2.pos, keys)));
    PlayerTwo.AttackKeepsExclusive(moved.p2, keys.p, keys.o);
  }

  /** Steps 8-11 keep the invariant: player 1's attack handling keeps its
      flags exclusive, and the later checks only turn flags off. */
  lemma AfterEscapeInvariant(b: GameState, t: Tick)
    requires HasClear(t.oracle.p1Draws, [b.p1.pos]) && Invariant(b)
    ensures Invariant(AfterEscape(b, t))
  {
    PlayerOne.AttackKeepsExclusive(b.p1, t.keys.z, t.keys.x);
  }

  /** One frame preserves the invariant. */
  lemma StepInvariant(s: GameState, t: Tick)
    requires Feasible(s, t) && Invariant(s)
    ensures Invariant(Step(s, t))
  {
    BeforeEscapeInvariant(s, t);
    if !t.keys.escape {
      AfterEscapeInvariant(BeforeEscape(s, t), t);
    }
  }

  /** Every state the loop reaches from an invariant state keeps the invariant. */
  lemma {:induction false} RunInvariant(s: GameState, ticks: seq<Tick>)
    requires Invariant(s)
    ensures Invariant(Run(s, ticks))
    decreases |ticks|
  {
    if |ticks| > 0 && !s.closeRequested && Feasible(s, ticks[0]) {
      StepInvariant(s, ticks[0]);
      RunInvariant(Step(s, ticks[0]), ticks[1..]);
    }
  }

  /** In particular, from the start of the game no frame ever has both of a
      player's projectile flags up. */
  lemma ExclusiveFromInit(ticks: seq<Tick>)
    ensures PlayerOne.Exclusive(Run(Init(), ticks).p1)
    ensures PlayerTwo.Exclusive(Run(Init(), ticks).p2)
  {
    InitInvariant();
    RunInvariant(Init(), ticks);
  }

  /** The score never goes down and grows by at most two per frame. */
  lemma {:induction false} RunScore(s: GameState, ticks: seq<Tick>)
    ensures s.score <= Run(s, ticks).score <= s.score + 2 * |ticks|
    decreases |ticks|
  {
    if |ticks| > 0 && !s.closeRequested && Feasible(s, ticks[0]) {
      RunScore(Step(s, ticks[0]), ticks[1..]);
    }
  }

  /** Once the close flag is set nothing changes any more. */
  lemma ClosedIsFinal(s: GameState, ticks: seq<Tick>)
    requires s.closeRequested
    ensures Run(s, ticks) == s
  {
  }

  /** Escape ends the frame before player 1's attack handling: player 1's
      projectile, flags and latches, the enemy shots and player 1's hit check
      are all left as they were. */
  lemma EscapeSkipsRest(s: GameState, t: Tick)
    requires Feasible(s, t) && t.keys.escape
    ensures var r := Step(s, t);
      && r.closeRequested
      && r.p1 == s.p1.(pos := MoveP1(s.p1.pos, t.keys))
      && (forall i :: 0 <= i < |s.enemies| ==> r.enemies[i].shot == s.enemies[i].shot)
      && r.score <= s.score + 1
  {
  }
}

=== FILE: geometry.dfy ===
/** Points of the normalised play space and the axis-aligned proximity test
    every collision in the game uses. Coordinates are mathematical reals: the
    single-precision rounding of the program is not modelled. */
module Geometry {
  /** A position or a per-frame velocity in the play space [-1, 1] x [-1, 1]. */
  datatype Vec = Vec(x: real, y: real) {
    function Plus(d: Vec): Vec
    {
      Vec(x + d.x, y + d.y)
    }
  }

  function Abs(r: real): (a: real)
    ensures a >= 0.0
    ensures a == r || a == -r
  {
    if r < 0.0 then -r else r
  }

  /** The box test of the program: both axis distances strictly below eps. */
  predicate Near(a: Vec, b: Vec, eps: real)
  {
    Abs(a.x - b.x) < eps && Abs(a.y - b.y) < eps
  }

  /** A coordinate outside the closed interval [-1, 1]. */
  predicate OutOfRange(c: real)
  {
    c < -1.0 || c > 1.0
  }

  predicate OnScreen(p: Vec)
  {
    !OutOfRange(p.x) && !OutOfRange(p.y)
  }
}

=== FILE: inputs.dfy ===
/** What one frame of the game reads from its collaborators: the keyboard
    snapshot, the clock and the random draws. Each is a plain value here, so
    the frame itself is a pure function of them. */
module Inputs {
  import opened Geometry

  /** One frame's keyboard snapshot, one flag per key the game polls: true when
      the key reads as pressed, false when it reads as released. */
  datatype Keys = Keys(
    w: bool, s: bool, a: bool, d: bool,             // player 1, unguarded
    up: bool, down: bool, left: bool, right: bool,  // player 1, guarded
    i: bool, k: bool, j: bool, l: bool,             // player 2, guarded
    p: bool, o: bool,                               // player 2 fire left / right
    z: bool, x: bool,                               // player 1 fire forward / reverse
    escape: bool)

  /** One respawn candidate: the two raw results of the random generator the
      program consumes for the x and then the y coordinate. */
  datatype Draw = Draw(rx: nat, ry: nat)

  /** The random choices of one frame. The angle draws and their cosine/sine
      are replaced by the velocity vectors they produce:
      - turn(i): the new wander velocity of enemy i, if it re-rolls;
      - aim(i):  the velocity of enemy i's shot, if it spawns one;
      - p2Draws: the candidates the respawn loop after a player-2 hit draws;
      - p1Draws: the candidates the respawn loop after a player-1 hit draws. */
  datatype Oracle = Oracle(turn: nat -> Vec, aim: nat -> Vec, p2Draws: seq<Draw>, p1Draws: seq<Draw>)

  /** The clock readings of one frame: the wander loop reads the clock once per
      enemy (wanderRead(i)) and the shot loop reads it once for all enemies. */
  datatype Clock = Clock(wanderRead: nat -> real, shotRead: real)

  datatype Tick = Tick(keys: Keys, clock: Clock, oracle: Oracle)
}

=== FILE: movement.dfy ===
/** Player movement: the unguarded W/A/S/D handler and the guarded handler
    shared by player 1's arrow keys and player 2's I/J/K/L keys. */
module Movement {
  import opened Geometry
  import opened Inputs

  const Speed := 0.01
  /** A guarded key moves only while the coordinate is further than this from
      the edge it moves towards. */
  const Margin := 0.1
  /** The band the guarded handler keeps a coordinate in: (-Reach, Reach). */
  const Reach := 1.0 - Margin + Speed

  /** Player 1's W/S/A/D handler: each pressed key moves by Speed, with no
      bound on where the player may go; opposite keys cancel. */
  function FreeMove(p: Vec, up: bool, down: bool, left: bool, right: bool): (q: Vec)
    ensures Abs(q.x - p.x) <= Speed && Abs(q.y - p.y) <= Speed
    ensures up && !down ==> q.y == p.y + Speed
    ensures down && !up ==> q.y == p.y - Speed
    ensures up == down ==> q.y == p.y
    ensures right && !left ==> q.x == p.x + Speed
    ensures left && !right ==> q.x == p.x - Speed
    ensures left == right ==> q.x == p.x
  {
    var y1 := if up then p.y + Speed else p.y;
    var y2 := if down then y1 - Speed else y1;
    var x1 := if left then p.x - Speed else p.x;
    var x2 := if right then x1 + Speed else x1;
    Vec(x2, y2)
  }

  /** Pressing the opposite keys undoes an unguarded move. */
  lemma FreeMoveUndo(p: Vec, up: bool, down: bool, left: bool, right: bool)
    ensures FreeMove(FreeMove(p, up, down, left, right), down, up, right, left) == p
  {
  }

  predicate InReach(c: real)
  {
    -Reach < c < Reach
  }

  /** A guarded key moving the coordinate up may fire only while it is more
      than Margin below 1; one moving it down only while it is more than
      Margin above -1. */
  predicate RiseGuard(c: real) { c + Margin < 1.0 }
  predicate FallGuard(c: real) { c - Margin > -1.0 }

  /** One guarded axis whose rising key is handled first (the y axis: up,
      then down), as a table of cases. With both keys held the falling key's
      guard reads the coordinate the rising key left, so near the top the
      coordinate falls and near the bottom it rises. */
  predicate RiseFirst(c: real, c': real, inc: bool, dec: bool)
  {
    && (!inc && !dec ==> c' == c)
    && (inc && !dec ==> c' == if RiseGuard(c) then c + Speed else c)
    && (dec && !inc ==> c' == if FallGuard(c) then c - Speed else c)
    && (inc && dec ==>
          c' == if !RiseGuard(c) then c - Speed else if !FallGuard(c + Speed) then c + Speed else c)
  }

  /** One guarded axis whose falling key is handled first (the x axis: left,
      then right). With both keys held the rising key's guard reads the
      coordinate the falling key left. */
  predicate FallFirst(c: real, c': real, dec: bool, inc: bool)
  {
    && (!inc && !dec ==> c' == c)
    && (inc && !dec ==> c' == if RiseGuard(c) then c + Speed else c)
    && (dec && !inc ==> c' == if FallGuard(c) then c - Speed else c)
    && (inc && dec ==>
          c' == if !FallGuard(c) then c + Speed else if !RiseGuard(c - Speed) then c - Speed else c)
  }

  /** The rising key's statement of the guarded handler. */
  function Rise(c: real, key: bool): real
  {
    if key && RiseGuard(c) then c + Speed else c
  }

  /** The falling key's statement of the guarded handler. */
  function Fall(c: real, key: bool): real
  {
    if key && FallGuard(c) then c - Speed else c
  }

  /** The y axis: up, then down, the second guard reading the first's result. */
  function RiseThenFall(c: real, inc: bool, dec: bool): (c': real)
    ensures RiseFirst(c, c', inc, dec)
    ensures InReach(c) ==> InReach(c')
  {
    Fall(Rise(c, inc), dec)
  }

  /** The x axis: left, then right, the second guard reading the first's result. */
  function FallThenRise(c: real, dec: bool, inc: bool): (c': real)
    ensures FallFirst(c, c', dec, inc)
    ensures InReach(c) ==> InReach(c')
  {
    Rise(Fall(c, dec), inc)
  }

  /** Each table fixes the result: it moves by -Speed, 0 or +Speed and which
      one is determined by the keys and the coordinate. */
  lemma TablesDetermine(c: real, a: real, b: real, dec: bool, inc: bool)
    ensures RiseFirst(c, a, inc, dec) && RiseFirst(c, b, inc, dec) ==> a == b
    ensures FallFirst(c, a, dec, inc) && FallFirst(c, b, dec, inc) ==> a == b
  {
  }

  /** The two key orders are mirror images: handling the falling key first is
      handling the rising key first on the negated coordinate. */
  lemma OrdersMirror(c: real, dec: bool, inc: bool)
    ensures FallThenRise(c, dec, inc) == -RiseThenFall(-c, dec, inc)
  {
  }

  /** The two key orders differ only with both keys held, within Speed of
      the band's edges: at x = -0.905 left-then-right rises while
      up-then-down would stay. */
  lemma OrderMatters()
    ensures FallThenRise(-0.905, true, true) == -0.895
    ensures RiseThenFall(-0.905, true, true) == -0.905
    ensures FallThenRise(0.905, true, true) == 0.905
    ensures RiseThenFall(0.905, true, true) == 0.895
  {
  }

  /** The guarded handler: up, down, left, right, each applied only while the
      coordinate as the previous statements left it is more than Margin
      inside the edge it moves to. */
  function GuardedMove(p: Vec, up: bool, down: bool, left: bool, right: bool): (q: Vec)
    ensures InReach(p.x) && InReach(p.y) ==> InReach(q.x) && InReach(q.y)
    ensures Abs(q.x - p.x) <= Speed && Abs(q.y - p.y) <= Speed
    ensures FallFirst(p.x, q.x, left, right)
    ensures RiseFirst(p.y, q.y, up, down)
  {
    Vec(FallThenRise(p.x, left, right), RiseThenFall(p.y, up, down))
  }

  /** Player 1's movement in one frame: W/A/S/D, then the arrow keys, whose
      guards read the position W/A/S/D left. */
  function MoveP1(p: Vec, keys: Keys): (q: Vec)
    ensures Abs(q.x - p.x) <= 2.0 * Speed && Abs(q.y - p.y) <= 2.0 * Speed
    ensures var f := FreeMove(p, keys.w, keys.s, keys.a, keys.d);
      FallFirst(f.x, q.x, keys.left, keys.right) && RiseFirst(f.y, q.y, keys.up, keys.down)
  {
    var p' := FreeMove(p, keys.w, keys.s, keys.a, keys.d);
    GuardedMove(p', keys.up, keys.down, keys.left, keys.right)
  }

  /** Player 2's movement in one frame: I/K, then J/L, through the guarded handler. */
  function MoveP2(p: Vec, keys: Keys): (q: Vec)
    ensures InReach(p.x) && InReach(p.y) ==> InReach(q.x) && InReach(q.y)
    ensures FallFirst(p.x, q.x, keys.j, keys.l) && RiseFirst(p.y, q.y, keys.i, keys.k)
  {
    GuardedMove(p, keys.i, keys.k, keys.j, keys.l)
  }
}

=== FILE: options.dfy ===
/** An optional value: the index a search loop stops at, if any. */
module Options {
  datatype Option<T> = None | Some(value: T)
}

=== FILE: player_one.dfy ===
/** Player 1's attacks: the forward flag (Z key, flies east) and the reverse
    flag (X key, flies west) share one projectile position. The X handler's
    debounce test reads the Z latch, so the X latch is written and never read. */
module PlayerOne {
  import opened Geometry
  import opened Projectile
  import opened State

  /** The mutual exclusion invariant of the two flags. */
  predicate Exclusive(p1: Player1)
  {
    !(p1.forward && p1.reverse)
  }

  /** The Z handler's outer guard: reverse idle, Z pressed, Z latch clear. */
  predicate ZGuard(p1: Player1, z: bool)
  {
    !p1.reverse && z && !p1.zLatch
  }

  /** The X handler's outer guard: forward idle, X pressed, and the Z latch clear. */
  predicate XGuard(p1: Player1, x: bool)
  {
    !p1.forward && x && !p1.zLatch
  }

  /** The Z handler and its release check. Passing the guard sets the latch
      even when the forward shot is already flying; only an idle forward flag
      spawns a shot at the player. */
  function FireForward(p1: Player1, z: bool): (r: Player1)
    ensures r.pos == p1.pos && r.reverse == p1.reverse && r.xLatch == p1.xLatch
    ensures r.forward && !p1.forward <==> ZGuard(p1, z) && !p1.forward
    ensures p1.forward ==> r.forward
    ensures r.shot == (if ZGuard(p1, z) && !p1.forward then p1.pos else p1.shot)
    ensures r.zLatch <==> z && (p1.zLatch || !p1.reverse)
    ensures Exclusive(p1) ==> Exclusive(r)
  {
    var q :=
      if ZGuard(p1, z) then
        if !p1.forward then p1.(zLatch := true, shot := p1.pos, forward := true) else p1.(zLatch := true)
      else p1;
    if z then q else q.(zLatch := false)
  }

  /** The X handler and its release check, with the Z latch as its debounce. */
  function FireReverse(p1: Player1, x: bool): (r: Player1)
    ensures r.pos == p1.pos && r.forward == p1.forward && r.zLatch == p1.zLatch
    ensures r.reverse && !p1.reverse <==> XGuard(p1, x) && !p1.reverse
    ensures p1.reverse ==> r.reverse
    ensures r.shot == (if XGuard(p1, x) && !p1.reverse then p1.pos else p1.shot)
    ensures r.xLatch <==> x && (p1.xLatch || (!p1.forward && !p1.zLatch))
    ensures Exclusive(p1) ==> Exclusive(r)
  {
    var q :=
      if XGuard(p1, x) then
        if !p1.reverse then p1.(xLatch := true, shot := p1.pos, reverse := true) else p1.(xLatch := true)
      else p1;
    if x then q else q.(xLatch := false)
  }

  /** One frame of flight of the forward shot, then of the reverse shot. */
  function Fly(p1: Player1): (r: Player1)
    ensures r.pos == p1.pos && r.zLatch == p1.zLatch && r.xLatch == p1.xLatch && r.shot.y == p1.shot.y
    ensures (r.forward ==> p1.forward) && (r.reverse ==> p1.reverse)
    ensures p1.forward && !p1.reverse ==>
      r.shot.x == p1.shot.x + ShotSpeed && (r.forward <==> r.shot.x <= 1.0) && !r.reverse
    ensures p1.reverse && !p1.forward ==>
      r.shot.x == p1.shot.x - ShotSpeed && (r.reverse <==> r.shot.x >= -1.0) && !r.forward
    ensures !p1.forward && !p1.reverse ==> r == p1
  {
    var f := Advance(Flight(p1.forward, p1.shot), East);
    var b := Advance(Flight(p1.reverse, f.shot), West);
    p1.(forward := f.active, reverse := b.active, shot := b.shot)
  }

  /** Player 1's attack handling in one frame: Z, X, then flight. From idle,
      Z fires east if its latch is clear, and X fires west only while Z is
      released; either way the new shot leaves the player and flies once in
      the same frame. */
  function Attack(p1: Player1, z: bool, x: bool): (r: Player1)
    ensures r.pos == p1.pos && (r.xLatch ==> x)
    ensures r.zLatch <==> z && (p1.zLatch || !p1.reverse)
    ensures Exclusive(p1) ==> Exclusive(r)
    ensures !p1.forward && !p1.reverse && z && !p1.zLatch ==>
      r.shot == Vec(p1.pos.x + ShotSpeed, p1.pos.y) && !r.reverse && (r.forward <==> r.shot.x <= 1.0)
    ensures !p1.forward && !p1.reverse && !z && x ==>
      r.shot == Vec(p1.pos.x - ShotSpeed, p1.pos.y) && !r.forward && (r.reverse <==> r.shot.x >= -1.0)
    ensures !p1.forward && !p1.reverse && (!z || p1.zLatch) && (z || !x) ==>
      r == p1.(zLatch := z, xLatch := x && p1.xLatch)
  {
    Fly(FireReverse(FireForward(p1, z), x))
  }

  /** The attack handling never makes both flags active and never moves the player. */
  lemma AttackKeepsExclusive(p1: Player1, z: bool, x: bool)
    requires Exclusive(p1)
    ensures Exclusive(Attack(p1, z, x)) && Attack(p1, z, x).pos == p1.pos
  {
  }

  /** The X latch is dead: the attack handling does the same whatever it holds. */
  lemma XLatchIgnored(p1: Player1, z: bool, x: bool, b: bool)
    ensures Attack(p1.(xLatch := b), z, x).(xLatch := false) == Attack(p1, z, x).(xLatch := false)
  {
  }

  /** Holding Z at the right edge fires once: the shot leaves the screen in the
      frame it is fired, and the set Z latch blocks the next frame. */
  lemma HeldZFiresOnce(pos: Vec)
    requires pos.x > 0.95
    ensures var p1 := Player1(pos, pos, false, false, false, false);
      var first := Attack(p1, true, false);
      && !first.forward && first.zLatch
      && !ZGuard(first, true)
      && Attack(first, true, false) == first
  {
  }

  /** Holding X at the left edge fires every frame: the shot leaves the screen
      in the frame it is fired, and nothing latches X. */
  lemma HeldXRefires(pos: Vec)
    requires pos.x < -0.95
    ensures var p1 := Player1(pos, pos, false, false, false, false);
      var first := Attack(p1, false, true);
      var second := Attack(first, false, true);
      && first.xLatch && !first.reverse
      && first.shot.x == pos.x - ShotSpeed
      && XGuard(first, true)
      && second == first
  {
  }
}

=== FILE: player_two.dfy ===
/** Player 2's attacks: the left slot (P key) and the right slot (O key), which
    share one projectile position and may never be active together. */
module PlayerTwo {
  import opened Geometry
  import opened Projectile
  import opened State

  datatype Side = LeftSide | RightSide

  function Other(side: Side): Side
  {
    match side
    case LeftSide => RightSide
    case RightSide => LeftSide
  }

  function HeadingOf(side: Side): Heading
  {
    match side
    case LeftSide => West
    case RightSide => East
  }

  function SlotOf(p2: Player2, side: Side): Slot
  {
    match side
    case LeftSide => p2.left
    case RightSide => p2.right
  }

  function WithSlot(p2: Player2, side: Side, sl: Slot): Player2
  {
    match side
    case LeftSide => p2.(left := sl)
    case RightSide => p2.(right := sl)
  }

  /** The slot mutual exclusion invariant. */
  predicate Exclusive(p2: Player2)
  {
    !(p2.left.active && p2.right.active)
  }

  /** The fire guard: key pressed, its latch clear and both slots idle. */
  predicate CanFire(p2: Player2, side: Side, pressed: bool)
  {
    pressed && !SlotOf(p2, side).latch && !p2.left.active && !p2.right.active
  }

  /** The fire handler of one side, followed by its release check. */
  function Fire(p2: Player2, side: Side, pressed: bool): (r: Player2)
    ensures r.pos == p2.pos && r.upward == p2.upward
    ensures SlotOf(r, Other(side)) == SlotOf(p2, Other(side))
    ensures SlotOf(r, side).active && !SlotOf(p2, side).active <==> CanFire(p2, side, pressed)
    ensures SlotOf(p2, side).active ==> SlotOf(r, side).active
    ensures r.shot == (if CanFire(p2, side, pressed) then p2.pos else p2.shot)
    ensures CanFire(p2, side, pressed) ==> SlotOf(r, side).latch
    ensures !pressed ==> !SlotOf(r, side).latch
    ensures SlotOf(p2, side).latch && !SlotOf(r, side).latch ==> !pressed
    ensures Exclusive(p2) ==> Exclusive(r)
  {
    var fired := if CanFire(p2, side, pressed) then WithSlot(p2, side, Slot(true, true)).(shot := p2.pos) else p2;
    if pressed then fired else WithSlot(fired, side, SlotOf(fired, side).(latch := false))
  }

  /** One frame of flight for one side's slot. */
  function Move(p2: Player2, side: Side): (r: Player2)
    ensures r.pos == p2.pos && r.upward == p2.upward && r.shot.y == p2.shot.y
    ensures SlotOf(r, Other(side)) == SlotOf(p2, Other(side))
    ensures SlotOf(r, side).latch == SlotOf(p2, side).latch
    ensures SlotOf(r, side).active ==> SlotOf(p2, side).active
    ensures !SlotOf(p2, side).active ==> r == p2
    ensures SlotOf(p2, side).active ==>
      r.shot.x == p2.shot.x + Dx(HeadingOf(side)) && (SlotOf(r, side).active <==> !Escaped(r.shot.x, HeadingOf(side)))
  {
    var f := Advance(Flight(SlotOf(p2, side).active, p2.shot), HeadingOf(side));
    WithSlot(p2, side, SlotOf(p2, side).(active := f.active)).(shot := f.shot)
  }

  /** Player 2's attack handling in one frame: fire left, move left, fire
      right, move right, in that order. From idle, a side that may fire
      spawns its shot at player 2 and moves it once in the same frame; the
      left side wins when both may fire, unless its shot is gone at once. */
  function Attack(p2: Player2, p: bool, o: bool): (r: Player2)
    ensures r.pos == p2.pos && r.upward == p2.upward
    ensures Exclusive(p2) ==> Exclusive(r)
    ensures !p2.left.active && !p2.right.active && CanFire(p2, LeftSide, p) && p2.pos.x - ShotSpeed >= -1.0 ==>
      r.left.active && !r.right.active && r.shot == Vec(p2.pos.x - ShotSpeed, p2.pos.y)
    ensures !p2.left.active && !p2.right.active && !p && CanFire(p2, RightSide, o) ==>
      !r.left.active && r.shot == Vec(p2.pos.x + ShotSpeed, p2.pos.y) && (r.right.active <==> r.shot.x <= 1.0)
    ensures !p2.left.active && !p2.right.active && !CanFire(p2, LeftSide, p) && !CanFire(p2, RightSide, o) ==>
      !r.left.active && !r.right.active && r.shot == p2.shot
  {
    Move(Fire(Move(Fire(p2, LeftSide, p), LeftSide), RightSide, o), RightSide)
  }

  /** The attack handling never makes both slots active, never moves player 2
      and never sets the upward flag. */
  lemma AttackKeepsExclusive(p2: Player2, p: bool, o: bool)
    requires Exclusive(p2)
    ensures Exclusive(Attack(p2, p, o))
    ensures Attack(p2, p, o).pos == p2.pos && Attack(p2, p, o).upward == p2.upward
  {
  }

  /** Debounce: each latch ends the frame set exactly when its key is held and
      it was already set or its side fired this frame; so a released key always
      clears it. */
  lemma AttackLatches(p2: Player2, p: bool, o: bool)
    ensures var mid := Move(Fire(p2, LeftSide, p), LeftSide);
      && (Attack(p2, p, o).left.latch <==> p && (p2.left.latch || CanFire(p2, LeftSide, p)))
      && (Attack(p2, p, o).right.latch <==> o && (p2.right.latch || CanFire(mid, RightSide, o)))
  {
  }

  /** Holding a key across two frames fires its side at most once: a side that
      fired in one frame cannot fire in the next while its key stays down. */
  lemma HeldKeyFiresOnce(p2: Player2, p: bool, o: bool, p': bool)
    ensures CanFire(p2, LeftSide, true) ==> !CanFire(Attack(p2, true, o), LeftSide, true)
    ensures var mid := Move(Fire(p2, LeftSide, p), LeftSide);
      var next := Move(Fire(Attack(p2, p, true), LeftSide, p'), LeftSide);
      CanFire(mid, RightSide, true) ==> !CanFire(next, RightSide, true)
  {
    AttackLatches(p2, true, o);
    AttackLatches(p2, p, true);
  }
}

=== FILE: projectile.dfy ===
/** Horizontal flight of a player projectile, shared by all four player slots
    (player 1 forward and reverse, player 2 right and left). */
module Projectile {
  import opened Geometry

  const ShotSpeed := 0.05

  /** East flies towards +x and leaves at x > 1; West towards -x, leaving at x < -1. */
  datatype Heading = East | West

  function Dx(h: Heading): real
  {
    match h
    case East => ShotSpeed
    case West => -ShotSpeed
  }

  /** Whether a projectile at x has left the screen on the side it flies to. */
  predicate Escaped(x: real, h: Heading)
  {
    match h
    case East => x > 1.0
    case West => x < -1.0
  }

  /** A slot flag together with the projectile position it moves. */
  datatype Flight = Flight(active: bool, shot: Vec)

  /** One frame of an active projectile: it moves ShotSpeed horizontally and
      its slot turns off once the new x is past the edge it flies towards. */
  function Advance(f: Flight, h: Heading): (r: Flight)
    ensures !f.active ==> r == f
    ensures f.active ==> r.shot.y == f.shot.y
    ensures f.active && h == East ==> r.shot.x - f.shot.x == ShotSpeed && (r.active <==> r.shot.x <= 1.0)
    ensures f.active && h == West ==> f.shot.x - r.shot.x == ShotSpeed && (r.active <==> r.shot.x >= -1.0)
  {
    if f.active then
      var x := f.shot.x + Dx(h);
      Flight(!Escaped(x, h), Vec(x, f.shot.y))
    else f
  }

  /** n frames of flight with nothing else touching the slot. */
  function AdvanceN(f: Flight, h: Heading, n: nat): Flight
  {
    if n == 0 then f else Advance(AdvanceN(f, h, n - 1), h)
  }

  /** Where a projectile is after n frames if nothing stops it. */
  function Travel(x: real, h: Heading, n: nat): real
  {
    x + n as real * Dx(h)
  }

  /** A projectile flies in a straight line at ShotSpeed per frame for exactly
      as long as it has not passed its edge: after n frames within the edge it
      is still active at x + n*Dx, and the first frame past the edge turns it off. */
  lemma {:induction false} FlightPath(f: Flight, h: Heading, n: nat)
    requires f.active && !Escaped(Travel(f.shot.x, h, n), h)
    ensures AdvanceN(f, h, n) == Flight(true, Vec(Travel(f.shot.x, h, n), f.shot.y))
    ensures AdvanceN(f, h, n + 1).active <==> !Escaped(Travel(f.shot.x, h, n + 1), h)
  {
    if n > 0 {
      assert !Escaped(Travel(f.shot.x, h, n - 1), h) by {
        match h
        case East => assert Travel(f.shot.x, h, n - 1) < Travel(f.shot.x, h, n);
        case West => assert Travel(f.shot.x, h, n - 1) > Travel(f.shot.x, h, n);
      }
      FlightPath(f, h, n - 1);
    }
    assert Travel(f.shot.x, h, n) + Dx(h) == Travel(f.shot.x, h, n + 1);
  }

  /** A shot fired east from x = 0.02 is still flying at x = 0.97 after 19
      frames and is gone after the 20th, at x = 1.02. Both positions are
      well clear of the edge, so single-precision rounding of the steps does
      not change the count. */
  lemma EastShotLifetime()
    ensures AdvanceN(Flight(true, Vec(0.02, 0.0)), East, 19) == Flight(true, Vec(0.97, 0.0))
    ensures !AdvanceN(Flight(true, Vec(0.02, 0.0)), East, 20).active
  {
    FlightPath(Flight(true, Vec(0.02, 0.0)), East, 19);
  }
}

=== FILE: respawn.dfy ===
/** Respawn placement after a hit: draw candidate positions on the grid of
    hundredths in [-1.00, 0.99] until one lies outside the box of every player
    that must be avoided. The program's loop has no bound; here the draws are a
    finite list, and a caller must supply one that holds an acceptable candidate. */
module Respawn {
  import opened Geometry
  import opened Inputs

  /** Half-width of the box around a player a respawned enemy must avoid. */
  const SpawnBox := 0.2

  /** A whole number of hundredths in [-1.00, 0.99]. */
  predicate OnGrid(c: real)
  {
    -1.0 <= c <= 0.99 && (c * 100.0).Floor as real == c * 100.0
  }

  /** A random integer turned into a coordinate: its remainder modulo 200,
      shifted down by 100, in hundredths. */
  function Coord(r: nat): (c: real)
    ensures OnGrid(c)
  {
    ((r % 200) - 100) as real / 100.0
  }

  function Candidate(d: Draw): Vec
  {
    Vec(Coord(d.rx), Coord(d.ry))
  }

  /** Outside the SpawnBox of every point in `avoid`. */
  predicate Clear(c: Vec, avoid: seq<Vec>)
  {
    forall k :: 0 <= k < |avoid| ==> !Near(c, avoid[k], SpawnBox)
  }

  /** The draws hold at least one acceptable candidate, so the loop ends. */
  predicate HasClear(ds: seq<Draw>, avoid: seq<Vec>)
  {
    exists k :: 0 <= k < |ds| && Clear(Candidate(ds[k]), avoid)
  }

  /** Draw k is acceptable and every draw before it was rejected. */
  predicate FirstClear(ds: seq<Draw>, avoid: seq<Vec>, k: int)
  {
    0 <= k < |ds| && Clear(Candidate(ds[k]), avoid) &&
    forall j :: 0 <= j < k ==> !Clear(Candidate(ds[j]), avoid)
  }

  /** The rejection loop: the first acceptable candidate in draw order. */
  function Place(ds: seq<Draw>, avoid: seq<Vec>): (r: Vec)
    requires HasClear(ds, avoid)
    ensures Clear(r, avoid)
    ensures exists k :: FirstClear(ds, avoid, k) && r == Candidate(ds[k])
    ensures OnGrid(r.x) && OnGrid(r.y)
    decreases |ds|
  {
    if Clear(Candidate(ds[0]), avoid) then Candidate(ds[0])
    else
      assert HasClear(ds[1..], avoid) by {
        var k :| 0 <= k < |ds| && Clear(Candidate(ds[k]), avoid);
        assert k > 0 && ds[1..][k - 1] == ds[k];
      }
      var r := Place(ds[1..], avoid);
      assert exists k :: FirstClear(ds, avoid, k) && r == Candidate(ds[k]) by {
        var k :| FirstClear(ds[1..], avoid, k) && r == Candidate(ds[1..][k]);
        assert forall j :: 0 < j < k + 1 ==> ds[j] == ds[1..][j - 1];
        assert FirstClear(ds, avoid, k + 1);
      }
      r
  }

  /** Only the draws up to the first acceptable one matter: any acceptable
      draw at position k bounds the chosen one to the first k + 1 draws. */
  lemma {:induction false} PlaceWithin(ds: seq<Draw>, avoid: seq<Vec>, k: nat)
    requires k < |ds| && Clear(Candidate(ds[k]), avoid)
    ensures HasClear(ds, avoid) && HasClear(ds[..k + 1], avoid)
      && Place(ds, avoid) == Place(ds[..k + 1], avoid)
    decreases k
  {
    var pre := ds[..k + 1];
    assert pre[k] == ds[k];
    assert pre[0] == ds[0];
    if !Clear(Candidate(ds[0]), avoid) {
      assert k > 0;
      assert ds[1..][k - 1] == ds[k];
      PlaceWithin(ds[1..], avoid, k - 1);
      assert pre[1..] == ds[1..][..k];
    }
  }

  /** Draws whose candidates are the four corners of the grid. */
  const Corners := [Draw(0, 0), Draw(199, 199), Draw(0, 199), Draw(199, 0)]

  /** The corner in the quadrant of p: 0 lower left, 1 upper right, 2 upper
      left, 3 lower right. */
  function Quadrant(p: Vec): nat
  {
    if p.x < 0.0 then (if p.y < 0.0 then 0 else 2) else (if p.y < 0.0 then 3 else 1)
  }

  /** Whatever two points must be avoided, one of the four corners is clear
      of both: a point's box reaches at most the corner of its own quadrant.
      So the respawn loop always has an acceptable candidate to find. */
  lemma CornersClear(a: Vec, b: Vec)
    ensures HasClear(Corners, [a, b])
    ensures HasClear(Corners, [a])
  {
    var cs := [Vec(-1.0, -1.0), Vec(0.99, 0.99), Vec(-1.0, 0.99), Vec(0.99, -1.0)];
    var k := if Quadrant(a) != 0 && Quadrant(b) != 0 then 0
      else if Quadrant(a) != 1 && Quadrant(b) != 1 then 1
      else 2;
    assert Candidate(Corners[k]) == cs[k];
    assert !Near(cs[k], a, SpawnBox) && !Near(cs[k], b, SpawnBox);
    assert Clear(Candidate(Corners[k]), [a, b]);
    assert Clear(Candidate(Corners[k]), [a]);
  }
}

=== FILE: scenarios.dfy ===
/** Concrete first frames of the game. The enemies are the start roster, with
    enemy 0 moved where a scenario needs it; every re-roll draws angle 0, so
    each enemy drifts east by 0.005; the clock reads 0, so no enemy shot is
    due; and every respawn draw lands at (-0.8, -0.8). A start state with
    player 1's forward shot already in flight exists only in the model: the
    program's period is 0 only before its first frame, when nothing flies. */
module Scenarios {
  import opened Geometry
  import opened Options
  import opened Inputs
  import opened State
  import opened Game
  import Respawn
  import PlayerOne
  import Movement
  import Wandering
  import EnemyFire
  import Combat

  const NoKeys := Keys(false, false, false, false, false, false, false, false,
                       false, false, false, false, false, false, false, false, false)

  /** The wander velocity of angle 0: cos 0 * 0.005 east, sin 0 * 0.005 north. */
  const East := Vec(0.005, 0.0)

  /** A frame at time 0 with no key pressed. */
  function QuietTick(): Tick
  {
    var still := Oracle((i: nat) => East, (i: nat) => Vec(0.02, 0.0), [Draw(20, 20)], [Draw(20, 20)]);
    Tick(NoKeys, Clock((i: nat) => 0.0, 0.0), still)
  }

  /** The start state with enemy 0 at `e0` and player 1's forward shot flying
      at `shot` when `firing`. */
  function Setup(e0: Vec, firing: bool, shot: Vec): GameState
  {
    Init().(enemies := [StartEnemy(e0), StartEnemy(Vec(-0.5, -0.2)), StartEnemy(Vec(0.7, -0.5))],
            p1 := Init().p1.(forward := firing, shot := shot))
  }

  /** A start enemy after its first wander pass with angle 0. */
  function Drifted(p: Vec): Enemy
  {
    StartEnemy(p).(pos := p.Plus(East), dir := East)
  }

  /** With both players at their start positions the draws place any respawn. */
  lemma QuietFeasible(s: GameState)
    requires s.p1.pos == Origin && s.p2.pos == Vec(0.5, 0.5)
    ensures Feasible(s, QuietTick())
  {
    var t := QuietTick();
    assert Movement.MoveP1(s.p1.pos, t.keys) == Origin;
    assert Movement.MoveP2(s.p2.pos, t.keys) == Vec(0.5, 0.5);
    var c := Respawn.Candidate(Draw(20, 20));
    assert c == Vec(-0.8, -0.8);
    assert Respawn.Clear(c, [Origin, Vec(0.5, 0.5)]);
    assert Respawn.Clear(c, [Origin]);
    assert t.oracle.p2Draws[0] == Draw(20, 20) && t.oracle.p1Draws[0] == Draw(20, 20);
  }

  /** In the first quiet frame every enemy re-rolls to angle 0 and drifts
      east, no player moves and nothing else changes. */
  lemma DriftEast(e0: Vec, firing: bool, shot: Vec)
    requires -1.0 <= e0.x && e0.x + 0.005 <= 1.0 && -1.0 <= e0.y <= 1.0
    ensures Feasible(Setup(e0, firing, shot), QuietTick())
    ensures BeforeEscape(Setup(e0, firing, shot), QuietTick()) ==
      Setup(e0, firing, shot).(period := Wandering.TurnPeriod,
        enemies := [Drifted(e0), Drifted(Vec(-0.5, -0.2)), Drifted(Vec(0.7, -0.5))])
  {
    var s := Setup(e0, firing, shot);
    QuietFeasible(s);
    var w := Wandering.WanderAll(s.enemies, QuietTick().clock.wanderRead, 0.0, QuietTick().oracle.turn);
    assert w[0] == Drifted(e0);
    assert w[1] == Drifted(Vec(-0.5, -0.2));
    assert w[2] == Drifted(Vec(0.7, -0.5));
    assert w == [Drifted(e0), Drifted(Vec(-0.5, -0.2)), Drifted(Vec(0.7, -0.5))];
  }

  /** Player 1 at the centre and enemy 0 at (0.05, 0.05): the body check ends
      the game and nothing is scored. */
  lemma BodyCollisionEndsGame()
    ensures Feasible(Setup(Vec(0.05, 0.05), false, Origin), QuietTick())
    ensures var r := Step(Setup(Vec(0.05, 0.05), false, Origin), QuietTick());
      r.closeRequested && r.score == 0
  {
    var s := Setup(Vec(0.05, 0.05), false, Origin);
    DriftEast(Vec(0.05, 0.05), false, Origin);
    var b := BeforeEscape(s, QuietTick());
    assert Combat.AnyHit(b.enemies, b.p1.pos) by {
      assert Near(b.p1.pos, b.enemies[0].pos, Combat.HitBox);
    }
  }

  /** In a quiet frame at time 0 no enemy shot is due, so the shot loop leaves
      idle slots alone and hits nothing. */
  lemma {:induction false} QuietShots(es: seq<Enemy>, from: nat, target: Vec)
    requires from <= |es|
    requires forall i :: 0 <= i < |es| ==> !es[i].shot.active && es[i].shot.lastFired == 0.0
    ensures EnemyFire.Shots(es, from, 0.0, QuietTick().oracle.aim, target) == EnemyFire.Volley(es, None)
    decreases |es| - from
  {
    if from < |es| {
      var o := EnemyFire.Shoot(es[from], 0.0, QuietTick().oracle.aim(from), target);
      assert o.shot == es[from].shot && !o.hit;
      assert es[from := es[from].(shot := o.shot)] == es;
      QuietShots(es, from + 1, target);
    }
  }

  /** In steps 8-9 of a quiet frame at time 0 only player 1's projectile
      moves; the body check and player 1's hits follow. */
  lemma QuietAfterEscape(b: GameState)
    requires b.p1.pos == Origin && !b.p1.reverse && !b.p1.zLatch && !b.p1.xLatch
    requires forall i :: 0 <= i < |b.enemies| ==> !b.enemies[i].shot.active && b.enemies[i].shot.lastFired == 0.0
    requires !b.closeRequested
    requires Respawn.HasClear(QuietTick().oracle.p1Draws, [b.p1.pos])
    ensures AfterEscape(b, QuietTick()) ==
      Combat.Player1Hits(Combat.BodyCheck(b.(p1 := PlayerOne.Fly(b.p1))), QuietTick().oracle.p1Draws)
  {
    var armed := b.(p1 := PlayerOne.Attack(b.p1, false, false));
    assert armed.p1 == PlayerOne.Fly(b.p1);
    QuietShots(armed.enemies, 0, armed.p1.pos);
  }

  /** A forward shot reaching enemy 0, drifted from (0.3, 0.3) to
      (0.305, 0.3) by the first wander pass: the score goes
      to 1, the shot is spent, and enemy 0 respawns away from player 1. */
  lemma ShotScores()
    ensures Feasible(Setup(Vec(0.3, 0.3), true, Vec(0.25, 0.3)), QuietTick())
    ensures var r := Step(Setup(Vec(0.3, 0.3), true, Vec(0.25, 0.3)), QuietTick());
      && r.score == 1 && !r.p1.forward && !r.closeRequested
      && !Near(r.enemies[0].pos, Origin, Respawn.SpawnBox)
  {
    DriftEast(Vec(0.3, 0.3), true, Vec(0.25, 0.3));
    ShotLands(BeforeEscape(Setup(Vec(0.3, 0.3), true, Vec(0.25, 0.3)), QuietTick()));
  }

  /** Steps 8-11 of the frame above, after the enemies have drifted. */
  lemma ShotLands(b: GameState)
    requires b.p1 == Player1(Origin, Vec(0.25, 0.3), true, false, false, false)
    requires !b.closeRequested && b.score == 0 && |b.enemies| == 3
    requires b.enemies[0].pos == Vec(0.305, 0.3) && b.enemies[1].pos == Vec(-0.495, -0.2)
      && b.enemies[2].pos == Vec(0.705, -0.5)
    requires forall i :: 0 <= i < 3 ==> !b.enemies[i].shot.active && b.enemies[i].shot.lastFired == 0.0
    ensures Respawn.HasClear(QuietTick().oracle.p1Draws, [b.p1.pos])
    ensures var r := AfterEscape(b, QuietTick());
      && r.score == 1 && !r.p1.forward && !r.closeRequested
      && !Near(r.enemies[0].pos, Origin, Respawn.SpawnBox)
  {
    PlaceQuiet();
    QuietAfterEscape(b);
    var armed := b.(p1 := PlayerOne.Fly(b.p1));
    assert armed.p1.shot == Vec(0.3, 0.3) && armed.p1.forward;
    ClearOfEnemies(armed);
    assert Combat.FirstHit(armed.enemies, armed.p1.shot, 0);
    FirstEnemyScores(armed, QuietTick().oracle.p1Draws);
  }

  /** Player 1 at the centre touches none of the drifted start enemies. */
  lemma ClearOfEnemies(s: GameState)
    requires s.p1.pos == Origin && |s.enemies| == 3
    requires s.enemies[0].pos == Vec(0.305, 0.3) && s.enemies[1].pos == Vec(-0.495, -0.2)
      && s.enemies[2].pos == Vec(0.705, -0.5)
    ensures Combat.BodyCheck(s) == s
  {
    var es := s.enemies;
    assert !Near(Origin, es[0].pos, Combat.HitBox) && !Near(Origin, es[1].pos, Combat.HitBox)
      && !Near(Origin, es[2].pos, Combat.HitBox);
    assert forall i :: 0 <= i < |es| ==> !Near(s.p1.pos, es[i].pos, Combat.HitBox);
    assert !Combat.AnyHit(es, s.p1.pos);
  }

  /** Player 1's shot touching enemy 0 scores on it and respawns it clear of
      player 1. */
  lemma FirstEnemyScores(s: GameState, ds: seq<Draw>)
    requires Respawn.HasClear(ds, [s.p1.pos])
    requires s.p1.forward && Combat.FirstHit(s.enemies, s.p1.shot, 0)
    ensures var r := Combat.Player1Hits(s, ds);
      && r.score == s.score + 1 && !r.p1.forward && r.closeRequested == s.closeRequested
      && !Near(r.enemies[0].pos, s.p1.pos, Respawn.SpawnBox)
  {
    var r := Combat.Player1Hits(s, ds);
    var i :| Combat.FirstHit(s.enemies, s.p1.shot, i)
      && Combat.RespawnedAt(s.enemies, r.enemies, i, [s.p1.pos]);
    assert i == 0;
    assert Respawn.Clear(r.enemies[0].pos, [s.p1.pos]);
    assert [s.p1.pos][0] == s.p1.pos;
  }

  /** The quiet draws respawn at (-0.8, -0.8). */
  lemma PlaceQuiet()
    ensures Respawn.HasClear([Draw(20, 20)], [Origin])
    ensures Respawn.Place([Draw(20, 20)], [Origin]) == Vec(-0.8, -0.8)
  {
    assert Respawn.Candidate(Draw(20, 20)) == Vec(-0.8, -0.8);
    assert Respawn.Clear(Vec(-0.8, -0.8), [Origin]);
    assert [Draw(20, 20)][0] == Draw(20, 20);
  }

  /** A frame that ends the game still runs its remaining checks: the body
      collision with enemy 0 sets the close flag, and player 1's shot scores on
      enemy 1 in the same frame. */
  lemma CollisionFrameStillScores()
    ensures Feasible(Setup(Vec(0.05, 0.05), true, Vec(-0.55, -0.2)), QuietTick())
    ensures var r := Step(Setup(Vec(0.05, 0.05), true, Vec(-0.55, -0.2)), QuietTick());
      r.closeRequested && r.score == 1
  {
    DriftEast(Vec(0.05, 0.05), true, Vec(-0.55, -0.2));
    CollidesAndLands(BeforeEscape(Setup(Vec(0.05, 0.05), true, Vec(-0.55, -0.2)), QuietTick()));
  }

  /** Steps 8-11 of the frame above, after the enemies have drifted. */
  lemma CollidesAndLands(b: GameState)
    requires b.p1 == Player1(Origin, Vec(-0.55, -0.2), true, false, false, false)
    requires !b.closeRequested && b.score == 0 && |b.enemies| == 3
    requires b.enemies[0].pos == Vec(0.055, 0.05) && b.enemies[1].pos == Vec(-0.495, -0.2)
      && b.enemies[2].pos == Vec(0.705, -0.5)
    requires forall i :: 0 <= i < 3 ==> !b.enemies[i].shot.active && b.enemies[i].shot.lastFired == 0.0
    ensures Respawn.HasClear(QuietTick().oracle.p1Draws, [b.p1.pos])
    ensures var r := AfterEscape(b, QuietTick());
      r.closeRequested && r.score == 1
  {
    PlaceQuiet();
    QuietAfterEscape(b);
    var armed := b.(p1 := PlayerOne.Fly(b.p1));
    assert armed.p1.shot == Vec(-0.5, -0.2) && armed.p1.forward;
    var body := Combat.BodyCheck(armed);
    assert body == armed.(closeRequested := true) by {
      assert Near(Origin, armed.enemies[0].pos, Combat.HitBox);
    }
    assert Combat.FirstHit(body.enemies, body.p1.shot, 1);
  }
}

=== FILE: state.dfy ===
/** The state the program keeps between frames: its globals and the
    function-local statics of the render loop, gathered into one value. */
module State {
  import opened Geometry

  /** One of player 2's directional attack slots with its key latch. */
  datatype Slot = Slot(active: bool, latch: bool)

  /** Player 1 owns one projectile position shared by two flags: `forward`
      (fired with Z, flies right) and `reverse` (fired with X, flies left).
      `zLatch` is the Z debounce latch; `xLatch` is written by the X handler
      but never read. */
  datatype Player1 = Player1(pos: Vec, shot: Vec, forward: bool, reverse: bool, zLatch: bool, xLatch: bool)

  /** Player 2 owns one projectile position shared by the left (P key) and
      right (O key) slots, plus an `upward` flag that is read but never set. */
  datatype Player2 = Player2(pos: Vec, shot: Vec, upward: bool, left: Slot, right: Slot)

  /** An enemy's projectile slot and the time its shot timer last reset. */
  datatype EnemyShot = EnemyShot(pos: Vec, dir: Vec, active: bool, lastFired: real)

  /** An enemy: position, wander velocity, the time it last re-rolled that
      velocity, and its projectile slot. */
  datatype Enemy = Enemy(pos: Vec, dir: Vec, lastTurn: real, shot: EnemyShot)

  /** `period` is the re-roll period: 0 until the first wander pass ends and
      2 from then on. `closeRequested` is the window's should-close flag. */
  datatype GameState = GameState(
    p1: Player1, p2: Player2, enemies: seq<Enemy>, period: real,
    score: nat, closeRequested: bool)

  const Origin := Vec(0.0, 0.0)

  function StartEnemy(pos: Vec): Enemy
  {
    Enemy(pos, Origin, 0.0, EnemyShot(Origin, Origin, false, 0.0))
  }

  /** The state before the first frame: player 1 at the centre, player 2 at
      (0.5, 0.5), three enemies at their seed positions, nothing flying. */
  function Init(): (s: GameState)
    ensures s.p1.pos == Origin && s.p2.pos == Vec(0.5, 0.5)
    ensures |s.enemies| == 3 && s.enemies[0].pos == Vec(0.3, 0.3)
      && s.enemies[1].pos == Vec(-0.5, -0.2) && s.enemies[2].pos == Vec(0.7, -0.5)
    ensures forall i :: 0 <= i < |s.enemies| ==>
      && s.enemies[i].dir == Origin && s.enemies[i].lastTurn == 0.0
      && !s.enemies[i].shot.active && s.enemies[i].shot.lastFired == 0.0
    ensures s.period == 0.0 && s.score == 0 && !s.closeRequested
    ensures !s.p1.forward && !s.p1.reverse && !s.p1.zLatch && !s.p1.xLatch
    ensures !s.p2.upward && !s.p2.left.active && !s.p2.right.active && !s.p2.left.latch && !s.p2.right.latch
  {
    GameState(
      Player1(Origin, Origin, false, false, false, false),
      Player2(Vec(0.5, 0.5), Vec(0.5, 0.5), false, Slot(false, false), Slot(false, false)),
      [StartEnemy(Vec(0.3, 0.3)), StartEnemy(Vec(-0.5, -0.2)), StartEnemy(Vec(0.7, -0.5))],
      0.0, 0, false)
  }
}

=== FILE: wandering.dfy ===
/** Enemy wandering: each enemy re-rolls its velocity once its re-roll period
    has elapsed, moves by its velocity every frame, and reverses a velocity
    component whenever the moved position lies outside [-1, 1] on that axis.
    The position itself is never pulled back inside. */
module Wandering {
  import opened Geometry
  import opened State

  /** The re-roll period once the first wander pass is over. */
  const TurnPeriod := 2.0

  predicate Turns(e: Enemy, now: real, period: real)
  {
    now - e.lastTurn >= period
  }

  /** The velocity an enemy moves by this frame: the fresh one if it re-rolls. */
  function Heading(e: Enemy, now: real, period: real, turn: Vec): Vec
  {
    if Turns(e, now, period) then turn else e.dir
  }

  /** One enemy's wander step, with `now` the clock reading taken for it and
      `turn` the velocity a re-roll would pick. */
  function Wander(e: Enemy, now: real, period: real, turn: Vec): (r: Enemy)
    ensures r.shot == e.shot
    ensures r.lastTurn == (if Turns(e, now, period) then now else e.lastTurn)
    ensures var v := Heading(e, now, period, turn);
      && r.pos == e.pos.Plus(v)
      && (OutOfRange(r.pos.x) ==> r.dir.x == -v.x)
      && (!OutOfRange(r.pos.x) ==> r.dir.x == v.x)
      && (OutOfRange(r.pos.y) ==> r.dir.y == -v.y)
      && (!OutOfRange(r.pos.y) ==> r.dir.y == v.y)
      && Abs(r.dir.x) == Abs(v.x) && Abs(r.dir.y) == Abs(v.y)
  {
    var v := Heading(e, now, period, turn);
    var pos := e.pos.Plus(v);
    var dx := if OutOfRange(pos.x) then -v.x else v.x;
    var dy := if OutOfRange(pos.y) then -v.y else v.y;
    e.(pos := pos, dir := Vec(dx, dy), lastTurn := if Turns(e, now, period) then now else e.lastTurn)
  }

  /** The wander pass over all enemies; enemy i reads clock value read(i) and
      would re-roll to turn(i). */
  function WanderAll(es: seq<Enemy>, read: nat -> real, period: real, turn: nat -> Vec): (r: seq<Enemy>)
    ensures |r| == |es|
    ensures forall i :: 0 <= i < |es| ==> r[i] == Wander(es[i], read(i), period, turn(i))
  {
    seq(|es|, i requires 0 <= i < |es| => Wander(es[i], read(i), period, turn(i)))
  }

  /** While the period is still 0 every enemy re-rolls, whatever the clock
      reads, as long as the clock has not gone back past its last re-roll. */
  lemma FirstPassTurns(e: Enemy, now: real, turn: Vec)
    requires now >= e.lastTurn
    ensures Wander(e, now, 0.0, turn).pos == e.pos.Plus(turn)
    ensures Wander(e, now, 0.0, turn).lastTurn == now
  {
  }

  /** Between re-rolls an enemy that crosses out of [-1, 1] on an axis is back
      on its original coordinate of that axis one frame later: the reversal
      undoes the step. This is also why an enemy that ends up outside the
      screen while its velocity is too small to carry it back keeps jumping
      between two positions outside until its next re-roll. */
  lemma ReversalUndoesStep(e: Enemy, now1: real, now2: real, period: real, t1: Vec, t2: Vec)
    requires !Turns(e, now1, period)
    requires !Turns(Wander(e, now1, period, t1), now2, period)
    ensures var e1 := Wander(e, now1, period, t1);
      var e2 := Wander(e1, now2, period, t2);
      && (OutOfRange(e1.pos.x) ==> e2.pos.x == e.pos.x)
      && (OutOfRange(e1.pos.y) ==> e2.pos.y == e.pos.y)
  {
  }

  /** An enemy that re-rolls keeps its new velocity for the next frame when the
      period has not elapsed again, apart from reversals. */
  lemma TurnIsKept(e: Enemy, now1: real, now2: real, turn1: Vec, turn2: Vec)
    requires Turns(e, now1, TurnPeriod) && now2 - now1 < TurnPeriod
    ensures var e1 := Wander(e, now1, TurnPeriod, turn1);
      !Turns(e1, now2, TurnPeriod) && Wander(e1, now2, TurnPeriod, turn2).lastTurn == now1
  {
  }
}
